=== FILE: README.md ===
# ApiDOM worker facade and Handlebars preview actions, in Dafny

This project models three pieces of decision logic from the API editor's
Handlebars preview, each as pure functions over oracles that stand for the
libraries and host objects.

- **The ApiDOM worker facade** (`ApiDOMWorker`). `_getTextDocument` finds the
  first Monaco mirror model whose uri string equals the requested uri. From it
  the function builds a fresh `TextDocument` snapshot, or returns `null` when
  no model matches. Eleven document-bound capabilities answer `[]` on a miss,
  `doDeref` and `getJsonPointerPosition` included. On a hit, each forwards the
  snapshot and its own arguments unchanged (`provideDefinition` wraps them as
  `{uri, position}`) to the
  matching ApiDOM language-service method and returns that method's result
  as is. Four methods forward with no lookup. `makeCreate` decides which
  worker class is instantiated: the base class, the base class with a
  warning, or the class a custom factory produced. It then constructs it, and
  passes on any error thrown by the script import, the factory or the
  constructor, or the error for a missing factory
  (`WorkerCreate`).
- **The `renderTemplate` thunk** (`RenderTemplateActions`). It dispatches
  STARTED. It renders through the ApiDOM worker when both
  `editorSelectors.selectEditor` and `fn.getApiDOMWorker` are defined, and
  locally with Handlebars otherwise. On the remote path only, text that
  begins with `ERROR RENDERING:` is turned into a failure. Any thrown error
  is caught. Unless the thrown value is `null` or `undefined` (see Left
  out), the run ends by dispatching and returning one SUCCESS or FAILURE
  action with the same request id, template and context as STARTED.
- **The `parse` thunk** (`ParseActions`). It dispatches STARTED, then exactly
  one of SUCCESS (compile returned) or FAILURE (compile threw), all with one
  request id.

JavaScript values, truthiness, property reads that throw, and default
parameters are modelled in `JsValues`. A library or host call is a function
parameter that returns a `Completion`: either `Normal(value)` or
`Throw(error)`. A dispatched action sequence is a `seq` of action datatypes.
The request id that `ShortUniqueId` would generate is a parameter.

## Model

| member | source | states |
|---|---|---|
| `JsValues.GetProperty` | src/plugins/editor-preview-mustache/actions/render-template.js:39 | reading a property throws a `TypeError` iff the receiver is `null` or `undefined`; an error's `message` is its message text |
| `ApiDOMWorker.DefaultApiDOMContext` | src/plugins/editor-monaco-language-apidom/language/ApiDOMWorker.js:7-27 | the class defaults, key by key: empty validator and completion provider lists, no performance logs, the DEBUG log level, Handlebars 1.0 (`TEXT` format, with its media type) as the default language content, a completion context of at most 100 items with LSP filtering off, and the indirect-external reference validation mode. The two library enum members are kept symbolic |
| `ApiDOMWorker.NewWorker` | src/plugins/editor-monaco-language-apidom/language/ApiDOMWorker.js:29-38 | the worker keeps its creation data; its language service is configured by deep-extending a fresh empty object with the class defaults and then with `createData.apiDOMContext` |
| `ApiDOMWorker.FindModel` | src/plugins/editor-monaco-language-apidom/language/ApiDOMWorker.js:152-154 | no index iff no mirror model has the uri; otherwise the index of a matching model with no matching model before it (the one `find` picks) |
| `ApiDOMWorker.GetTextDocument` | src/plugins/editor-monaco-language-apidom/language/ApiDOMWorker.js:151-162 | `null` iff no model's uri string equals the uri; otherwise a snapshot with the requested uri, the creation data's language id, and the version and text of the first matching model |
| `ApiDOMWorker.Dispatch` | src/plugins/editor-monaco-language-apidom/language/ApiDOMWorker.js:41-149 | a document-bound capability answers `[]` itself iff resolution misses; otherwise it makes one call to the service method of the same capability, with the resolved snapshot and its other arguments unchanged. `provideDefinition` wraps `{uri, position}`, `doDeref` defaults its context to `{}`, and `getContext` defaults `processed` to false. The four lookup-free methods always delegate, with no document |
| `ApiDOMWorker.Invoke` | src/plugins/editor-monaco-language-apidom/language/ApiDOMWorker.js:41-149 | a resolution miss yields `[]`; a delegated call yields the completion of the language service built from the worker's own configuration, thrown errors included |
| `ApiDOMWorker.WorkersAgreeOnSameContext` | src/plugins/editor-monaco-language-apidom/language/ApiDOMWorker.js:29-38 | two workers whose creation data agree on language id and `apiDOMContext` answer every request alike, whatever else (such as `customWorkerPath`) differs |
| `ApiDOMWorker.ServiceSeesMergedContext` | src/plugins/editor-monaco-language-apidom/language/ApiDOMWorker.js:35-47 | a delegated call goes to the language service configured with `deepExtend({}, defaultApiDOMContext, createData.apiDOMContext)` |
| `ApiDOMWorker.MissLeavesServiceUntouched` | src/plugins/editor-monaco-language-apidom/language/ApiDOMWorker.js:41-137 | on a miss, every document-bound capability yields `[]` whichever language service is plugged in: the service is not consulted |
| `ApiDOMWorker.ResolutionIgnoresLaterModels` | src/plugins/editor-monaco-language-apidom/language/ApiDOMWorker.js:152-161 | once a match exists, appending mirror models never changes the snapshot (first match wins) |
| `ApiDOMWorker.ResolutionSkipsOtherUris` | src/plugins/editor-monaco-language-apidom/language/ApiDOMWorker.js:152-161 | putting models with other uris in front never changes the snapshot |
| `ApiDOMWorker.SnapshotFollowsEdits` | src/plugins/editor-monaco-language-apidom/language/ApiDOMWorker.js:151-162 | the mirror models are read on every call, so an edit to the matched model shows up in the next snapshot's version and text |
| `WorkerCreate.ImportArgs` | src/plugins/editor-monaco-language-apidom/language/ApiDOMWorker.js:175-179 | an array `customWorkerPath` imports all of its entries in order; any other path imports exactly itself |
| `WorkerCreate.SelectClass` | src/plugins/editor-monaco-language-apidom/language/ApiDOMWorker.js:165-194 | no truthy path: the base class, with no host interaction. A path but no `importScripts`: one warning, then the base class. A path and `importScripts`: the scripts are imported first; a throwing import aborts with its error, a global factory that is not a function aborts with the not-registered error, and otherwise the factory called on the base class and the dependency bag decides the class or aborts with what it throws |
| `WorkerCreate.Construct` | src/plugins/editor-monaco-language-apidom/language/ApiDOMWorker.js:29-38 | constructing the base class succeeds iff creating its language service from the merged configuration returns, and then yields the facade over the creation data; a custom class, constructed at line 196 by `new ApiDOMWorkerClass(ctx, createData)`, yields its own instance or its constructor's error |
| `WorkerCreate.MakeCreate` | src/plugins/editor-monaco-language-apidom/language/ApiDOMWorker.js:165-197 | the host effects of class selection, then: the selection's error if it aborted, otherwise the constructed instance or the constructor's error. Without a truthy path a created worker is always the base facade over the creation data |
| `WorkerCreate.BaseClassIffNoImport` | src/plugins/editor-monaco-language-apidom/language/ApiDOMWorker.js:166-194 | the base class is chosen with no script imported exactly when the path is falsy or the host has no `importScripts` |
| `WorkerCreate.MissingFactoryNeverFallsBack` | src/plugins/editor-monaco-language-apidom/language/ApiDOMWorker.js:181-186 | after an import, a factory slot that is not a function always makes creation fail: it never falls back to the base class |
| `WorkerCreate.FactoryDecidesClass` | src/plugins/editor-monaco-language-apidom/language/ApiDOMWorker.js:188-196 | when the registered factory returns a class, the worker is that class constructed from the same creation data, and the only effect is the import |
| `WorkerCreate.EmptyPathsDiffer` | src/plugins/editor-monaco-language-apidom/language/ApiDOMWorker.js:168-179 | an empty-string path loads nothing, while an empty array leads to an `importScripts()` call with no arguments |
| `RenderTemplateActions.FirstLine` | src/plugins/editor-preview-mustache/actions/render-template.js:85 | `split('\n')[0]` is the longest prefix free of line feeds: a prefix with no `'\n'` that stops at the first `'\n'` or at the end |
| `RenderTemplateActions.ErrorMessage` | src/plugins/editor-preview-mustache/actions/render-template.js:39 | it throws iff the error is null or undefined, and the message is otherwise always truthy: an `Error`'s non-empty message, a plain object's own truthy `message` of any type, and `'Unknown error occurred'` for an empty or missing message or a primitive |
| `RenderTemplateActions.RenderTemplateStarted` | src/plugins/editor-preview-mustache/actions/render-template.js:19-26 | STARTED type, the template as payload, context and request id in meta, not an error |
| `RenderTemplateActions.RenderTemplateSuccess` | src/plugins/editor-preview-mustache/actions/render-template.js:28-36 | SUCCESS type, the rendered text as payload, template, context and request id in meta, not an error |
| `RenderTemplateActions.RenderTemplateFailure` | src/plugins/editor-preview-mustache/actions/render-template.js:38-52 | FAILURE type with `error: true`, the original error as payload, `errorMessage` equal to `error.message || 'Unknown error occurred'` (so always truthy, and the unknown-error text for `new Error('')`), and the template, context and request id in meta. It throws the `TypeError` of reading `message` iff the error is null or undefined |
| `RenderTemplateActions.ModelUri` | src/plugins/editor-preview-mustache/actions/render-template.js:74 | `editor.getModel().uri` throws a `TypeError` for a null or undefined editor and for a missing model, and otherwise reads `uri` off the model |
| `RenderTemplateActions.RenderRemote` | src/plugins/editor-preview-mustache/actions/render-template.js:72-75 | the remote calls run in evaluation order (`selectEditor`, the callee `fn.getApiDOMWorker()`, the uri read, the worker lookup, the read of `renderTemplate` off the worker, which throws a `TypeError` for a `null` or `undefined` worker, and the call); the first that throws decides the error, and otherwise the result is what the worker rendered |
| `RenderTemplateActions.RenderLocal` | src/plugins/editor-preview-mustache/actions/render-template.js:76-80 | compile, then parse the context, then render; a compile error wins over a context error, and otherwise the result is the render call's |
| `RenderTemplateActions.Produce` | src/plugins/editor-preview-mustache/actions/render-template.js:63-80 | the remote path is the attempt iff both accessors are defined, and the local path otherwise |
| `RenderTemplateActions.RenderTemplate` | src/plugins/editor-preview-mustache/actions/render-template.js:57-107 | STARTED is dispatched first and exactly once. At most one further action follows, and it is terminal and is what the thunk returns. Every action carries the same request id, template and context. The result is SUCCESS with the rendered text iff rendering returned text that is not a remote sentinel text; a FAILURE carries the thrown error or `new Error(firstLine)`. The thunk rejects, with the `TypeError` of reading `message`, iff the attempt threw null or undefined |
| `RenderTemplateActions.SentinelSurvivesFirstLine` | src/plugins/editor-preview-mustache/actions/render-template.js:83-85 | the first line of a sentinel-prefixed text still starts with `ERROR RENDERING:` |
| `RenderTemplateActions.RemoteSentinelIsFailure` | src/plugins/editor-preview-mustache/actions/render-template.js:83-90 | on the remote path, sentinel-prefixed output yields FAILURE with `new Error(firstLine)` as payload and the first line as message |
| `RenderTemplateActions.LocalOutputIsSuccess` | src/plugins/editor-preview-mustache/actions/render-template.js:76-97 | local-path output is SUCCESS with the rendered text, even when it starts with the sentinel |
| `RenderTemplateActions.RemotePlainOutputIsSuccess` | src/plugins/editor-preview-mustache/actions/render-template.js:92-97 | remote output without the sentinel is SUCCESS with the rendered text |
| `RenderTemplateActions.ThrowIsFailure` | src/plugins/editor-preview-mustache/actions/render-template.js:98-105 | an exception from any call on either path, unless it is null or undefined, is returned as FAILURE carrying that same error |
| `RenderTemplateActions.PathSelection` | src/plugins/editor-preview-mustache/actions/render-template.js:63-80 | with both accessors defined the local engine plays no part; otherwise the remote calls play none |
| `RenderTemplateActions.FirstLineStopsAtLineFeed` | src/plugins/editor-preview-mustache/actions/render-template.js:85 | the first line of `line + "\n" + rest` is `line` whenever `line` has no line feed |
| `RenderTemplateActions.SentinelExample` | src/plugins/editor-preview-mustache/actions/render-template.js:85 | `"ERROR RENDERING: bad token\nmore detail"` has first line `"ERROR RENDERING: bad token"` |
| `RenderTemplateActions.GetterThrowPrecedesModelRead` | src/plugins/editor-preview-mustache/actions/render-template.js:73-74 | when `fn.getApiDOMWorker()` throws, the remote path fails with that error and never reads the editor's model |
| `RenderTemplateActions.NullFromGetterRejects` | src/plugins/editor-preview-mustache/actions/render-template.js:73-105 | with a `null` editor and a getter that throws `null`, the thunk rejects after STARTED alone, because the `null` (not the uri read's `TypeError`) reaches `error.message` |
| `RenderTemplateActions.RemoteFailureMessageIsFirstLine` | src/plugins/editor-preview-mustache/actions/render-template.js:83-90 | a remote sentinel text whose first line is `line` yields FAILURE with `new Error(line)` and message `line`, whatever follows the first line feed |
| `RenderTemplateActions.NullishWorkerThrows` | src/plugins/editor-preview-mustache/actions/render-template.js:74-75 | a `null` or `undefined` worker ends the remote path with a `TypeError`, whatever its render call would return |
| `ParseActions.ParseStartedAction` | src/plugins/editor-preview-mustache/actions/parse.js:16-23 | STARTED type, the content as payload, content type and request id in meta, not an error |
| `ParseActions.ParseSuccessAction` | src/plugins/editor-preview-mustache/actions/parse.js:25-29 | SUCCESS type, the compile result as payload, content, content type and request id in meta, not an error |
| `ParseActions.ParseFailureAction` | src/plugins/editor-preview-mustache/actions/parse.js:31-36 | FAILURE type, the error as payload, `error: true`, content, content type and request id in meta |
| `ParseActions.CompileOptions` | src/plugins/editor-preview-mustache/actions/parse.js:43 | `parserOptions` defaults to `{}` only when undefined, and is otherwise passed unchanged |
| `ParseActions.Parse` | src/plugins/editor-preview-mustache/actions/parse.js:43-64 | two actions: STARTED first, then SUCCESS iff compile returned and FAILURE iff it threw, whose payload is what compile returned or threw; one request id, content and content type throughout |
| `ParseActions.CompileSeesOptionsUnchanged` | src/plugins/editor-preview-mustache/actions/parse.js:43-53 | the run depends on the compiler only through the single call on the content and the defaulted options |
| `ParseActions.ExactlyOneTerminal` | src/plugins/editor-preview-mustache/actions/parse.js:50-62 | STARTED occurs only at position 0, and the final action is never STARTED; it is flagged as an error iff it is FAILURE |

## Left out

- The `deep-extend` merge is library code. The service configuration is kept as the unevaluated term `DeepExtend({}, defaults, apiDOMContext)`. Recursive and array-merge rules are not modelled, and neither is the associativity property of the merge.
- `apidomLS` language-service internals are an oracle from a service configuration and a service call to a completion. The state that `refreshContext` changes inside the service is not modelled.
- `Handlebars.compile`, the compiled template's rendering and `fn.parseMustacheContext` are oracles that may return or throw. That Handlebars renders `Hello {{name}}` with `{name: 'World'}` to `Hello World` is a property of Handlebars and is not stated.
- `ShortUniqueId` is not modelled: the request id is a parameter. Uniqueness across requests cannot be derived from this code.
- async/await scheduling and concurrent renders are not modelled. Each thunk is one sequential run producing an action sequence.
- `console.warn` is recorded as a `Warn` effect, and `importScripts` as an `ImportScripts` effect. The global factory slot after an import is an oracle on the imported script list.
- `WorkerCreate.MakeCreate` keeps the thrown error as `FactoryNotRegistered(customWorkerPath)`. The template-literal text `The script at ${customWorkerPath} does not add customApiDOMWorkerFactory to globalThis` needs JavaScript's string conversion of arbitrary values, which is not modelled.
- What a custom factory's class does once instantiated is unknown. Only the base class is tied to the facade (`NewWorker`). The `BaseClass` argument of `makeCreate` is taken to be `ApiDOMWorker` itself.
- `WorkerCreate.Construct`: of the base constructor's calls only `getLanguageService` may throw. `deepExtend` is treated as total, because its source is not part of this model.
- The Monaco mirror context is reduced to the list of mirror models read at call time. A model's `uri` is its `uri.toString()` string, and `TextDocument.create` is a plain record.
- `system.fn` is assumed to be defined. If `editorSelectors.selectEditor` is defined but `fn` is not, the source throws before STARTED, and the model does not cover that case.
- `RenderTemplateActions.RenderTemplate`: the value the worker's `renderTemplate` returns, and the local render result, are typed as strings. A non-string from the worker would make `startsWith` throw a `TypeError`, reported as FAILURE. A non-string local result would be dispatched unchanged as the SUCCESS payload, because the `&&` at render-template.js:83 skips `startsWith` on the local path. Neither case is modelled.
- JavaScript numbers are integers here (no NaN or fractions). This only matters for the truthiness of `customWorkerPath` and of an error's `message`.
- `ParseActions.Parse` and `RenderTemplateActions.RenderTemplate`: dispatching through `editorPreviewMustacheActions` is taken to append the creator's action to the trace and return it, never throwing. The binding of the action creators to the store is outside the modelled files. A reducer or store listener that throws while SUCCESS is dispatched would make the `catch` dispatch FAILURE as well, and the model does not cover that. An exception thrown inside an action creator is taken to propagate to the thunk's caller.
- A render failure does not always reach the store. This follows from the dispatch assumption above. An error that is `null` or `undefined` makes `renderTemplateFailure` throw while reading `error.message`, so the thunk rejects after STARTED with no terminal action; see `RenderTemplateActions.RenderTemplate`.

=== FILE: api_dom_worker.dfy ===
/**
 The ApiDOM worker facade: every document-bound capability first resolves a
 text-document snapshot from the host's mirror models and either answers `[]`
 (no such document) or forwards the snapshot and its own arguments, unchanged,
 to the ApiDOM language service. The language service itself is an oracle
 from the configuration it was created with and a service call to a
 completion.
 */
module ApiDOMWorker {
  import opened JsValues

  /** A Monaco mirror model as the worker reads it: `uri.toString()`, the
      model's `version` and `getValue()`. */
  datatype MirrorModel = MirrorModel(uri: string, version: int, value: string)

  /** The worker's creation data. */
  datatype CreateData = CreateData(languageId: string, apiDOMContext: Value, customWorkerPath: Value)

  /** `TextDocument.create(uri, languageId, version, text)`. */
  datatype TextDocument = TextDocument(uri: string, languageId: string, version: int, text: string)

  /** The configuration handed to `apidomLS.getLanguageService`: the result of
      `deepExtend(target, defaults, overrides)`, kept as an unevaluated term
      because the merge is library code. */
  datatype ServiceConfig = DeepExtend(target: Value, defaults: Value, overrides: Value)

  /** The ApiDOM language service `apidomLS.getLanguageService(config)`
      returns, as the answer it gives to each call. */
  type LanguageService = (ServiceConfig, ServiceCall) -> Completion<Value>

  /** A worker instance of the base class: its creation data and the
      configuration its language service was created from. */
  datatype Worker = Worker(createData: CreateData, serviceConfig: ServiceConfig)

  /** `ApiDOMWorker.defaultApiDOMContext`; the two library enum members are
      kept symbolic. */
  function DefaultApiDOMContext(): (r: Value)
    ensures r.Obj? && Lookup(r.props, "performanceLogs") == Bool(false)
    ensures Lookup(r.props, "validatorProviders") == Arr([]) && Lookup(r.props, "completionProviders") == Arr([])
    ensures Lookup(r.props, "defaultLanguageContent") == DefaultLanguageContent()
    ensures Lookup(r.props, "completionContext") == DefaultCompletionContext()
    ensures Lookup(r.props, "logLevel") == Ext("apidomLS.LogLevel.DEBUG")
    ensures Lookup(r.props, "validationContext") == DefaultValidationContext()
  {
    var languageContent, completion, validation :=
      DefaultLanguageContent(), DefaultCompletionContext(), DefaultValidationContext();
    DefaultKeysInPlace(languageContent, completion, validation);
    Obj(DefaultApiDOMEntries(languageContent, completion, validation))
  }

  /** The entries of `defaultApiDOMContext`, in source order, around its
      three nested objects. */
  function DefaultApiDOMEntries(languageContent: Value, completion: Value, validation: Value): seq<(string, Value)> {
    [ ("validatorProviders", Arr([])),
      ("completionProviders", Arr([])),
      ("performanceLogs", Bool(false)),
      ("logLevel", Ext("apidomLS.LogLevel.DEBUG")),
      ("defaultLanguageContent", languageContent),
      ("completionContext", completion),
      ("validationContext", validation) ]
  }

  /** Each default key occurs once, at its source position, so looking it up
      finds the entry written there. */
  lemma DefaultKeysInPlace(languageContent: Value, completion: Value, validation: Value)
    ensures var e := DefaultApiDOMEntries(languageContent, completion, validation);
            && Lookup(e, "validatorProviders") == Arr([])
            && Lookup(e, "completionProviders") == Arr([])
            && Lookup(e, "performanceLogs") == Bool(false)
            && Lookup(e, "logLevel") == Ext("apidomLS.LogLevel.DEBUG")
            && Lookup(e, "defaultLanguageContent") == languageContent
            && Lookup(e, "completionContext") == completion
            && Lookup(e, "validationContext") == validation
  {
    var e := DefaultApiDOMEntries(languageContent, completion, validation);
    // the two `completion…` keys part at their eleventh character, the two
    // `validat…` keys at their eighth
    assert "completionProviders"[10] != "completionContext"[10];
    assert "validatorProviders"[7] != "validationContext"[7];
    assert FirstEntryFor(e, "validatorProviders", 0, 0);
    assert FirstEntryFor(e, "completionProviders", 0, 1);
    assert FirstEntryFor(e, "performanceLogs", 0, 2);
    assert FirstEntryFor(e, "logLevel", 0, 3);
    assert FirstEntryFor(e, "defaultLanguageContent", 0, 4);
    assert FirstEntryFor(e, "completionContext", 0, 5);
    assert FirstEntryFor(e, "validationContext", 0, 6);
  }

  /** The default validation settings: references are followed indirectly,
      external ones included. */
  function DefaultValidationContext(): (r: Value)
    ensures r.Obj? && Lookup(r.props, "referenceValidationMode")
                      == Ext("apidomLS.ReferenceValidationMode.APIDOM_INDIRECT_EXTERNAL")
  {
    Obj([("referenceValidationMode", Ext("apidomLS.ReferenceValidationMode.APIDOM_INDIRECT_EXTERNAL"))])
  }

  /** The default content the language service assumes: Handlebars 1.0 text. */
  function DefaultLanguageContent(): (r: Value)
    ensures r.Obj? && Lookup(r.props, "namespace") == Str("handlebars")
    ensures Lookup(r.props, "mediaType") == Str("application/vnd.aai.handlebars;version=1.0")
    ensures Lookup(r.props, "version") == Str("1.0") && Lookup(r.props, "format") == Str("TEXT")
  {
    Obj([
      ("namespace", Str("handlebars")),
      ("version", Str("1.0")),
      ("format", Str("TEXT")),
      ("mediaType", Str("application/vnd.aai.handlebars;version=1.0"))])
  }

  /** The default completion settings: at most 100 items, Monaco's own
      fuzzy filtering. */
  function DefaultCompletionContext(): (r: Value)
    ensures r.Obj? && Lookup(r.props, "maxNumberOfItems") == Num(100)
    ensures Lookup(r.props, "enableLSPFilter") == Bool(false)
  {
    Obj([
      ("maxNumberOfItems", Num(100)),
      ("enableLSPFilter", Bool(false))])
  }

  /** `new ApiDOMWorker(ctx, createData)`: the language service is configured
      from a fresh empty object deep-extended with the class defaults and then
      with the caller's `apiDOMContext`. */
  function NewWorker(createData: CreateData): (w: Worker)
    ensures w.createData == createData
    ensures w.serviceConfig.target == Obj([])
    ensures w.serviceConfig.overrides == createData.apiDOMContext
    ensures w.serviceConfig.defaults == DefaultApiDOMContext()
  {
    Worker(createData, DeepExtend(Obj([]), DefaultApiDOMContext(), createData.apiDOMContext))
  }

  /** Index of the first mirror model whose uri string equals `uri`, as
      `Array.prototype.find` picks it. */
  function FindModel(models: seq<MirrorModel>, uri: string): (r: Option<nat>)
    ensures r.None? <==> forall j :: 0 <= j < |models| ==> models[j].uri != uri
    ensures r.Some? ==> r.value < |models| && models[r.value].uri == uri
    ensures r.Some? ==> forall j :: 0 <= j < r.value ==> models[j].uri != uri
  {
    if |models| == 0 then None
    else if models[0].uri == uri then Some(0)
    else match FindModel(models[1..], uri)
      case None => None
      case Some(i) => Some(i + 1)
  }

  /** `_getTextDocument(uri)`: a fresh snapshot of the first matching mirror
      model, or `null` when none matches. The mirror list is read anew on
      every call, so it is a parameter here. */
  function GetTextDocument(models: seq<MirrorModel>, createData: CreateData, uri: string): (r: Option<TextDocument>)
    ensures r.None? <==> forall j :: 0 <= j < |models| ==> models[j].uri != uri
    ensures r.Some? ==> exists i :: 0 <= i < |models| && models[i].uri == uri
                          && (forall j :: 0 <= j < i ==> models[j].uri != uri)
                          && r.value == TextDocument(uri, createData.languageId, models[i].version, models[i].value)
  {
    match FindModel(models, uri)
    case None => None
    case Some(i) =>
      Some(TextDocument(uri, createData.languageId, models[i].version, models[i].value))
  }

  /** The capabilities of the facade, and equally the language-service
      methods they forward to. */
  datatype Capability =
    | Validate | Highlights | Complete | HoverInfo | Links | Symbols | Definition
    | CodeActions | SemanticTokens | TokensLegend | Deref | PointerPosition
    | Refresh | ContextQuery | Render

  /** A call of one facade method with its arguments. */
  datatype Request =
    | DoValidation(uri: string)
    | DoProvideDocumentHighlights(uri: string, position: Value, token: Value)
    | DoComplete(uri: string, position: Value)
    | DoHover(uri: string, position: Value)
    | DoLinks(uri: string)
    | FindDocumentSymbols(uri: string)
    | ProvideDefinition(uri: string, position: Value)
    | DoCodeActions(uri: string, diagnostics: Value)
    | FindSemanticTokens(uri: string)
    | GetSemanticTokensLegend
    | DoDeref(uri: string, dereferenceContext: Value)
    | GetJsonPointerPosition(uri: string, jsonPointer: Value)
    | RefreshContext(contextUri: Value, context: Value)
    | GetContext(processed: Value)
    | RenderTemplate(template: Value)
  {
    function Kind(): Capability {
      match this
      case DoValidation(_) => Validate
      case DoProvideDocumentHighlights(_, _, _) => Highlights
      case DoComplete(_, _) => Complete
      case DoHover(_, _) => HoverInfo
      case DoLinks(_) => Links
      case FindDocumentSymbols(_) => Symbols
      case ProvideDefinition(_, _) => Definition
      case DoCodeActions(_, _) => CodeActions
      case FindSemanticTokens(_) => SemanticTokens
      case GetSemanticTokensLegend => TokensLegend
      case DoDeref(_, _) => Deref
      case GetJsonPointerPosition(_, _) => PointerPosition
      case RefreshContext(_, _) => Refresh
      case GetContext(_) => ContextQuery
      case RenderTemplate(_) => Render
    }

    /** The methods that look the document up before delegating. */
    predicate DocumentBound() {
      !(GetSemanticTokensLegend? || RefreshContext? || GetContext? || RenderTemplate?)
    }

    /** The request after JavaScript's default parameters have applied:
        `dereferenceContext = {}` and `processed = false`. */
    function Defaulted(): Request {
      match this
      case DoDeref(u, c) => DoDeref(u, OrDefault(c, Obj([])))
      case GetContext(p) => GetContext(OrDefault(p, Bool(false)))
      case _ => this
    }

    /** The arguments other than the document uri, in call order. */
    function ExtraArgs(): seq<Value> {
      match this
      case DoValidation(_) => []
      case DoProvideDocumentHighlights(_, p, t) => [p, t]
      case DoComplete(_, p) => [p]
      case DoHover(_, p) => [p]
      case DoLinks(_) => []
      case FindDocumentSymbols(_) => []
      case ProvideDefinition(_, p) => [p]
      case DoCodeActions(_, d) => [d]
      case FindSemanticTokens(_) => []
      case GetSemanticTokensLegend => []
      case DoDeref(_, c) => [c]
      case GetJsonPointerPosition(_, j) => [j]
      case RefreshContext(u, c) => [u, c]
      case GetContext(p) => [p]
      case RenderTemplate(t) => [t]
    }
  }

  /** A call of one language-service method with its arguments. */
  datatype ServiceCall =
    | LsDoValidation(document: TextDocument)
    | LsProvideDocumentHighlights(document: TextDocument, position: Value, token: Value)
    | LsDoCompletion(document: TextDocument, position: Value)
    | LsDoHover(document: TextDocument, position: Value)
    | LsDoLinks(document: TextDocument)
    | LsDoFindDocumentSymbols(document: TextDocument)
    | LsDoProvideDefinition(document: TextDocument, definitionParams: Value)
    | LsDoCodeActions(document: TextDocument, diagnostics: Value)
    | LsComputeSemanticTokens(document: TextDocument)
    | LsGetSemanticTokensLegend
    | LsDoDeref(document: TextDocument, dereferenceContext: Value)
    | LsGetJsonPointerPosition(document: TextDocument, jsonPointer: Value)
    | LsRefreshContext(contextUri: Value, context: Value)
    | LsGetContext(processed: Value)
    | LsRenderTemplateThroughService(template: Value)
  {
    function Kind(): Capability {
      match this
      case LsDoValidation(_) => Validate
      case LsProvideDocumentHighlights(_, _, _) => Highlights
      case LsDoCompletion(_, _) => Complete
      case LsDoHover(_, _) => HoverInfo
      case LsDoLinks(_) => Links
      case LsDoFindDocumentSymbols(_) => Symbols
      case LsDoProvideDefinition(_, _) => Definition
      case LsDoCodeActions(_, _) => CodeActions
      case LsComputeSemanticTokens(_) => SemanticTokens
      case LsGetSemanticTokensLegend => TokensLegend
      case LsDoDeref(_, _) => Deref
      case LsGetJsonPointerPosition(_, _) => PointerPosition
      case LsRefreshContext(_, _) => Refresh
      case LsGetContext(_) => ContextQuery
      case LsRenderTemplateThroughService(_) => Render
    }

    predicate HasDocument() {
      !(LsGetSemanticTokensLegend? || LsRefreshContext? || LsGetContext? || LsRenderTemplateThroughService?)
    }

    /** The arguments after the document, in call order. */
    function ExtraArgs(): seq<Value> {
      match this
      case LsDoValidation(_) => []
      case LsProvideDocumentHighlights(_, p, t) => [p, t]
      case LsDoCompletion(_, p) => [p]
      case LsDoHover(_, p) => [p]
      case LsDoLinks(_) => []
      case LsDoFindDocumentSymbols(_) => []
      case LsDoProvideDefinition(_, d) => [d]
      case LsDoCodeActions(_, d) => [d]
      case LsComputeSemanticTokens(_) => []
      case LsGetSemanticTokensLegend => []
      case LsDoDeref(_, c) => [c]
      case LsGetJsonPointerPosition(_, j) => [j]
      case LsRefreshContext(u, c) => [u, c]
      case LsGetContext(p) => [p]
      case LsRenderTemplateThroughService(t) => [t]
    }
  }

  /** What a facade method does: answer `[]` itself, or make exactly one
      language-service call and return its result. */
  datatype Step = ReturnEmpty | Delegate(call: ServiceCall)

  /** The `{uri, position}` object `provideDefinition` hands to the service. */
  function DefinitionParams(uri: string, position: Value): Value {
    Obj([("uri", Str(uri)), ("position", position)])
  }

  /** The decision a facade method takes for `request`, given the mirror
      models present at call time. */
  function Dispatch(models: seq<MirrorModel>, w: Worker, request: Request): (r: Step)
    ensures request.DocumentBound() ==>
              (r.ReturnEmpty? <==> GetTextDocument(models, w.createData, request.uri).None?)
    ensures !request.DocumentBound() ==> r.Delegate?
    ensures r.Delegate? ==> r.call.Kind() == request.Kind()
    ensures r.Delegate? ==> (r.call.HasDocument() <==> request.DocumentBound())
    ensures r.Delegate? && request.DocumentBound() ==>
              GetTextDocument(models, w.createData, request.uri) == Some(r.call.document)
    ensures r.Delegate? && !request.ProvideDefinition? ==>
              r.call.ExtraArgs() == request.Defaulted().ExtraArgs()
    ensures r.Delegate? && request.ProvideDefinition? ==>
              r.call.ExtraArgs() == [DefinitionParams(request.uri, request.position)]
  {
    if !request.DocumentBound() then
      match request
      case GetSemanticTokensLegend => Delegate(LsGetSemanticTokensLegend)
      case RefreshContext(u, c) => Delegate(LsRefreshContext(u, c))
      case GetContext(p) => Delegate(LsGetContext(OrDefault(p, Bool(false))))
      case RenderTemplate(t) => Delegate(LsRenderTemplateThroughService(t))
    else
      match GetTextDocument(models, w.createData, request.uri)
      case None => ReturnEmpty
      case Some(doc) =>
        match request
        case DoValidation(_) => Delegate(LsDoValidation(doc))
        case DoProvideDocumentHighlights(_, p, t) => Delegate(LsProvideDocumentHighlights(doc, p, t))
        case DoComplete(_, p) => Delegate(LsDoCompletion(doc, p))
        case DoHover(_, p) => Delegate(LsDoHover(doc, p))
        case DoLinks(_) => Delegate(LsDoLinks(doc))
        case FindDocumentSymbols(_) => Delegate(LsDoFindDocumentSymbols(doc))
        case ProvideDefinition(u, p) => Delegate(LsDoProvideDefinition(doc, DefinitionParams(u, p)))
        case DoCodeActions(_, d) => Delegate(LsDoCodeActions(doc, d))
        case FindSemanticTokens(_) => Delegate(LsComputeSemanticTokens(doc))
        case DoDeref(_, c) => Delegate(LsDoDeref(doc, OrDefault(c, Obj([]))))
        case GetJsonPointerPosition(_, j) => Delegate(LsGetJsonPointerPosition(doc, j))
  }

  /** Calling a facade method: the language service's answer is returned as
      is, thrown errors included; a resolution miss answers `[]`. */
  function Invoke(models: seq<MirrorModel>, w: Worker, request: Request,
                  service: LanguageService): (r: Completion<Value>)
    ensures (request.DocumentBound() && GetTextDocument(models, w.createData, request.uri).None?)
              ==> r == Normal(Arr([]))
    ensures Dispatch(models, w, request).Delegate? ==>
              r == service(w.serviceConfig, Dispatch(models, w, request).call)
  {
    match Dispatch(models, w, request)
    case ReturnEmpty => Normal(Arr([]))
    case Delegate(call) => service(w.serviceConfig, call)
  }

  /** A base-class worker answers every request exactly as a language service
      configured with the defaults deep-extended by its `apiDOMContext` does:
      two workers whose creation data agree on the language id and that
      context give the same answers, whatever else the creation data holds. */
  lemma WorkersAgreeOnSameContext(models: seq<MirrorModel>, cd1: CreateData, cd2: CreateData,
                                  request: Request, service: LanguageService)
    requires cd1.languageId == cd2.languageId && cd1.apiDOMContext == cd2.apiDOMContext
    ensures Invoke(models, NewWorker(cd1), request, service) == Invoke(models, NewWorker(cd2), request, service)
  {
    if request.DocumentBound() {
      assert GetTextDocument(models, cd1, request.uri) == GetTextDocument(models, cd2, request.uri);
    }
  }

  /** A delegated call of a base-class worker reaches the service under the
      configuration `deepExtend({}, defaultApiDOMContext, apiDOMContext)`. */
  lemma ServiceSeesMergedContext(models: seq<MirrorModel>, cd: CreateData, request: Request, service: LanguageService)
    ensures Dispatch(models, NewWorker(cd), request).Delegate? ==>
              Invoke(models, NewWorker(cd), request, service)
              == service(DeepExtend(Obj([]), DefaultApiDOMContext(), cd.apiDOMContext),
                         Dispatch(models, NewWorker(cd), request).call)
  {
  }

  /** A resolution miss answers `[]` whatever the language service would have
      done: the service is not consulted. */
  lemma MissLeavesServiceUntouched(models: seq<MirrorModel>, w: Worker, request: Request,
                                   s1: LanguageService, s2: LanguageService)
    requires request.DocumentBound()
    requires forall j :: 0 <= j < |models| ==> models[j].uri != request.uri
    ensures Invoke(models, w, request, s1) == Invoke(models, w, request, s2) == Normal(Arr([]))
  {
  }

  /** Mirror models after the first match never influence the snapshot. */
  lemma {:induction false} ResolutionIgnoresLaterModels(models: seq<MirrorModel>, later: seq<MirrorModel>,
                                                        createData: CreateData, uri: string)
    requires exists j :: 0 <= j < |models| && models[j].uri == uri
    ensures GetTextDocument(models + later, createData, uri) == GetTextDocument(models, createData, uri)
  {
    FindModelIgnoresLater(models, later, uri);
  }

  lemma {:induction false} FindModelIgnoresLater(models: seq<MirrorModel>, later: seq<MirrorModel>, uri: string)
    requires exists j :: 0 <= j < |models| && models[j].uri == uri
    ensures FindModel(models + later, uri) == FindModel(models, uri)
  {
    if models[0].uri != uri {
      assert (models + later)[1..] == models[1..] + later;
      var j :| 0 <= j < |models| && models[j].uri == uri;
      assert models[1..][j - 1].uri == uri;
      FindModelIgnoresLater(models[1..], later, uri);
    }
  }

  /** Mirror models with other uris in front of the collection never change
      which snapshot is produced. */
  lemma {:induction false} ResolutionSkipsOtherUris(others: seq<MirrorModel>, models: seq<MirrorModel>,
                                                    createData: CreateData, uri: string)
    requires forall j :: 0 <= j < |others| ==> others[j].uri != uri
    ensures GetTextDocument(others + models, createData, uri) == GetTextDocument(models, createData, uri)
  {
    FindModelSkipsOthers(others, models, uri);
  }

  lemma {:induction false} FindModelSkipsOthers(others: seq<MirrorModel>, models: seq<MirrorModel>, uri: string)
    requires forall j :: 0 <= j < |others| ==> others[j].uri != uri
    ensures match FindModel(models, uri)
            case None => FindModel(others + models, uri).None?
            case Some(i) => FindModel(others + models, uri) == Some(|others| + i)
  {
    if |others| > 0 {
      assert (others + models)[0] == others[0];
      assert (others + models)[1..] == others[1..] + models;
      FindModelSkipsOthers(others[1..], models, uri);
    } else {
      assert others + models == models;
    }
  }

  /** Each call reads the mirror models afresh: after a host edit of the
      matched model, the next snapshot carries the new version and text. */
  lemma SnapshotFollowsEdits(models: seq<MirrorModel>, createData: CreateData, i: nat, version: int, text: string)
    requires i < |models|
    requires forall j :: 0 <= j < i ==> models[j].uri != models[i].uri
    ensures GetTextDocument(models[i := MirrorModel(models[i].uri, version, text)], createData, models[i].uri)
              == Some(TextDocument(models[i].uri, createData.languageId, version, text))
  {
    var edited := models[i := MirrorModel(models[i].uri, version, text)];
    assert edited[i].uri == models[i].uri;
    assert forall j :: 0 <= j < i ==> edited[j] == models[j];
    assert FindModel(edited, models[i].uri) == Some(i);
  }
}

=== FILE: js_values.dfy ===
/**
 The slice of JavaScript's value model that the editor-preview and worker code
 relies on: truthiness, property reads that may throw, default parameters and
 exceptions. Library calls are modelled elsewhere as oracles that return a
 `Completion`, i.e. either a value or a thrown value.
 */
module JsValues {

  /** A JavaScript value, as far as the modelled code tells values apart.
      `Num` ignores NaN and fractions; `Ext` stands for a constant exported by
      a library whose source is not part of this model. */
  datatype Value =
    | Undefined
    | Null
    | Bool(b: bool)
    | Num(n: int)
    | Str(s: string)
    | Arr(elems: seq<Value>)
    | Obj(props: seq<(string, Value)>)
    | ErrorObj(name: string, message: string)
    | Fn(id: string)
    | Ext(path: string)

  /** The outcome of evaluating a JavaScript expression or call: it returns a
      value or throws one. */
  datatype Completion<+T> = Normal(value: T) | Throw(error: Value)

  /** `null` for a missing result, as `_getTextDocument` returns it. */
  datatype Option<+T> = None | Some(value: T)

  predicate IsNullish(v: Value) {
    v.Undefined? || v.Null?
  }

  /** JavaScript truthiness: `undefined`, `null`, `false`, `0` and `''` are
      falsy, every object (arrays and functions included) is truthy. */
  predicate Truthy(v: Value) {
    match v
    case Undefined => false
    case Null => false
    case Bool(b) => b
    case Num(n) => n != 0
    case Str(s) => s != ""
    case _ => true
  }

  /** `typeof v === 'function'`. */
  predicate IsFunction(v: Value) {
    v.Fn?
  }

  /** `new Error(message)`. */
  function NewError(message: string): Value {
    ErrorObj("Error", message)
  }

  /** The `TypeError` V8 raises when a property is read from `null` or `undefined`. */
  function PropertyReadError(receiver: Value, key: string): Value {
    ErrorObj("TypeError", "Cannot read properties of "
      + (if receiver.Null? then "null" else "undefined") + " (reading '" + key + "')")
  }

  /** Entry `i` is the first entry for `key` at or after index `from`. */
  predicate FirstEntryFor(props: seq<(string, Value)>, key: string, from: nat, i: int) {
    && from <= i < |props|
    && props[i].0 == key
    && forall j :: from <= j < i ==> props[j].0 != key
  }

  /** The value of own property `key` of an object; `undefined` when the
      object has no such key. An `Obj` lists each own property once, in
      insertion order, as a JavaScript object holds them, so the first entry
      for a key is its only one. */
  function Lookup(props: seq<(string, Value)>, key: string): (r: Value)
    ensures (forall i :: 0 <= i < |props| ==> props[i].0 != key) ==> r == Undefined
    ensures forall i {:trigger FirstEntryFor(props, key, 0, i)} ::
              FirstEntryFor(props, key, 0, i) ==> r == props[i].1
  {
    LookupFrom(props, key, 0)
  }

  /** `Lookup` over the entries from index `from` on. */
  function LookupFrom(props: seq<(string, Value)>, key: string, from: nat): (r: Value)
    ensures (forall i :: from <= i < |props| ==> props[i].0 != key) ==> r == Undefined
    ensures forall i {:trigger FirstEntryFor(props, key, from, i)} ::
              FirstEntryFor(props, key, from, i) ==> r == props[i].1
    decreases |props| - from
  {
    if from >= |props| then Undefined
    else if props[from].0 == key then props[from].1
    else
      assert forall i {:trigger FirstEntryFor(props, key, from, i)} ::
        FirstEntryFor(props, key, from, i) ==> FirstEntryFor(props, key, from + 1, i);
      LookupFrom(props, key, from + 1)
  }

  /** `v[key]`: throws on `null`/`undefined`, reads an own property of an
      object or error, and is `undefined` for every other primitive. */
  function GetProperty(v: Value, key: string): (r: Completion<Value>)
    ensures r.Throw? <==> IsNullish(v)
    ensures r.Throw? ==> r.error.ErrorObj? && r.error.name == "TypeError"
    ensures v.ErrorObj? && key == "message" ==> r == Normal(Str(v.message))
  {
    match v
    case Undefined => Throw(PropertyReadError(v, key))
    case Null => Throw(PropertyReadError(v, key))
    case Obj(props) => Normal(Lookup(props, key))
    case ErrorObj(name, message) =>
      if key == "message" then Normal(Str(message))
      else if key == "name" then Normal(Str(name))
      else Normal(Undefined)
    case _ => Normal(Undefined)
  }

  /** A destructured parameter with a default: the default applies exactly
      when the caller passed `undefined`. */
  function OrDefault(v: Value, default: Value): (r: Value)
    ensures v.Undefined? ==> r == default
    ensures !v.Undefined? ==> r == v
  {
    if v.Undefined? then default else v
  }
}

=== FILE: make_create.dfy ===
/**
 `makeCreate(BaseClass)(ctx, createData)`: which worker class is instantiated,
 and how its construction can fail. The host is reduced to whether
 `globalThis.importScripts` exists, and every call that may throw (importing
 the scripts, the custom factory, the language service a base-class worker
 creates, the constructor of a custom class) is an oracle.
 */
module WorkerCreate {
  import opened JsValues
  import opened ApiDOMWorker

  /** The dependency bag every custom factory receives. */
  const FactoryDependencies: seq<string> := ["apidomLS", "vscodeLanguageServerTextDocument", "deepExtend"]

  const NoWebWorkersWarning: string :=
    "Monaco is not using webworkers for background tasks, and that is needed to support the customWorkerPath flag"

  /** The class a worker is instantiated from: the base class, or a class a
      custom factory returned. */
  datatype WorkerClass = BaseClass | CustomClass(name: string)

  /** The host-side view of one `makeCreate` call. */
  datatype HostEnv = HostEnv(
    hasImportScripts: bool,
    // `globalThis.importScripts(...scripts)`
    importScripts: seq<Value> -> Completion<()>,
    // `globalThis.customApiDOMWorkerFactory` once the scripts ran
    factoryAfterImport: seq<Value> -> Value,
    // `factory(BaseClass, deps)`
    callFactory: (Value, WorkerClass, seq<string>) -> Completion<WorkerClass>,
    // `apidomLS.getLanguageService(config)`, as the base constructor calls it
    getLanguageService: ServiceConfig -> Completion<Value>,
    // `new CustomClass(ctx, createData)`
    constructCustom: (WorkerClass, CreateData) -> Completion<Value>)

  /** Host-visible side effects, in order. */
  datatype HostEffect = Warn(message: string) | ImportScripts(scripts: seq<Value>)

  /** Why `makeCreate` threw: the imported script registered no factory (the
      error names the configured `customWorkerPath`), or a call threw. */
  datatype CreateError = FactoryNotRegistered(customWorkerPath: Value) | Threw(error: Value)

  /** The class chosen, or the reason none could be. */
  datatype Choice = Chosen(cls: WorkerClass) | Aborted(error: CreateError)

  /** A constructed worker: the facade of the base class, or an instance of a
      custom class whose behaviour is not modelled. */
  datatype Instance = BaseWorker(worker: Worker) | CustomWorker(cls: WorkerClass, handle: Value)

  datatype Outcome = Instantiated(instance: Instance) | Failed(error: CreateError)

  datatype CreateRun = CreateRun(effects: seq<HostEffect>, outcome: Outcome)

  /** The arguments `importScripts` is called with: every entry of an array
      path, otherwise the path itself. */
  function ImportArgs(customWorkerPath: Value): (r: seq<Value>)
    ensures customWorkerPath.Arr? ==> r == customWorkerPath.elems
    ensures !customWorkerPath.Arr? ==> |r| == 1 && r[0] == customWorkerPath
  {
    if customWorkerPath.Arr? then customWorkerPath.elems else [customWorkerPath]
  }

  /** The class-selection part of `makeCreate`, with its host effects. */
  function SelectClass(env: HostEnv, createData: CreateData): (r: (seq<HostEffect>, Choice))
    // no custom path: the base class, untouched, and no host interaction
    ensures !Truthy(createData.customWorkerPath) ==> r == ([], Chosen(BaseClass))
    // a custom path outside a web worker: a warning, then the base class
    ensures Truthy(createData.customWorkerPath) && !env.hasImportScripts ==>
              r == ([Warn(NoWebWorkersWarning)], Chosen(BaseClass))
    // inside a web worker the scripts are always imported first
    ensures Truthy(createData.customWorkerPath) && env.hasImportScripts ==>
              r.0 == [ImportScripts(ImportArgs(createData.customWorkerPath))]
    ensures Truthy(createData.customWorkerPath) && env.hasImportScripts ==>
              var scripts := ImportArgs(createData.customWorkerPath);
              var f := env.factoryAfterImport(scripts);
              && (env.importScripts(scripts).Throw? ==> r.1 == Aborted(Threw(env.importScripts(scripts).error)))
              // a missing factory is fatal: never a silent fallback to the base class
              && (env.importScripts(scripts).Normal? && !IsFunction(f) ==>
                    r.1 == Aborted(FactoryNotRegistered(createData.customWorkerPath)))
              // a registered factory decides the class
              && (env.importScripts(scripts).Normal? && IsFunction(f) ==>
                    match env.callFactory(f, BaseClass, FactoryDependencies)
                    case Normal(cls) => r.1 == Chosen(cls)
                    case Throw(e) => r.1 == Aborted(Threw(e)))
  {
    var path := createData.customWorkerPath;
    if !Truthy(path) then
      ([], Chosen(BaseClass))
    else if !env.hasImportScripts then
      ([Warn(NoWebWorkersWarning)], Chosen(BaseClass))
    else
      var scripts := ImportArgs(path);
      var effects := [ImportScripts(scripts)];
      match env.importScripts(scripts)
      case Throw(e) => (effects, Aborted(Threw(e)))
      case Normal(_) =>
        var factory := env.factoryAfterImport(scripts);
        if !IsFunction(factory) then
          (effects, Aborted(FactoryNotRegistered(path)))
        else
          match env.callFactory(factory, BaseClass, FactoryDependencies)
          case Throw(e) => (effects, Aborted(Threw(e)))
          case Normal(cls) => (effects, Chosen(cls))
  }

  /** `new ApiDOMWorkerClass(ctx, createData)`: the base class builds the
      facade and its language service, which may throw; a custom class is
      constructed by its own code. */
  function Construct(env: HostEnv, cls: WorkerClass, createData: CreateData): (r: Completion<Instance>)
    ensures cls == BaseClass ==>
              (r.Normal? <==> env.getLanguageService(NewWorker(createData).serviceConfig).Normal?)
    ensures cls == BaseClass && r.Normal? ==> r.value == BaseWorker(NewWorker(createData))
    ensures cls == BaseClass && r.Throw? ==>
              r.error == env.getLanguageService(NewWorker(createData).serviceConfig).error
    ensures cls != BaseClass ==> match env.constructCustom(cls, createData)
                                 case Normal(h) => r == Normal(CustomWorker(cls, h))
                                 case Throw(e) => r == Throw(e)
  {
    if cls == BaseClass then
      match env.getLanguageService(NewWorker(createData).serviceConfig)
      case Throw(e) => Throw(e)
      case Normal(_) => Normal(BaseWorker(NewWorker(createData)))
    else
      match env.constructCustom(cls, createData)
      case Throw(e) => Throw(e)
      case Normal(h) => Normal(CustomWorker(cls, h))
  }

  /** One call of the function `makeCreate(BaseClass)` returns: select the
      class, then construct it; any error on the way is thrown to the caller. */
  function MakeCreate(env: HostEnv, createData: CreateData): (r: CreateRun)
    ensures r.effects == SelectClass(env, createData).0
    ensures SelectClass(env, createData).1.Aborted? ==>
              r.outcome == Failed(SelectClass(env, createData).1.error)
    ensures SelectClass(env, createData).1.Chosen? ==>
              match Construct(env, SelectClass(env, createData).1.cls, createData)
              case Normal(inst) => r.outcome == Instantiated(inst)
              case Throw(e) => r.outcome == Failed(Threw(e))
    // without a custom path the worker is the base facade over `createData`,
    // unless creating its language service throws
    ensures !Truthy(createData.customWorkerPath) && r.outcome.Instantiated? ==>
              r.outcome.instance == BaseWorker(NewWorker(createData))
  {
    var (effects, choice) := SelectClass(env, createData);
    match choice
    case Aborted(err) => CreateRun(effects, Failed(err))
    case Chosen(cls) =>
      match Construct(env, cls, createData)
      case Throw(e) => CreateRun(effects, Failed(Threw(e)))
      case Normal(inst) => CreateRun(effects, Instantiated(inst))
  }

  /** The base class is chosen without any script import exactly when the path
      is falsy or the host is no web worker. */
  lemma BaseClassIffNoImport(env: HostEnv, createData: CreateData)
    ensures var (effects, choice) := SelectClass(env, createData);
            (choice == Chosen(BaseClass) && forall k :: 0 <= k < |effects| ==> !effects[k].ImportScripts?)
            <==> !(Truthy(createData.customWorkerPath) && env.hasImportScripts)
  {
    var (effects, choice) := SelectClass(env, createData);
    if Truthy(createData.customWorkerPath) && env.hasImportScripts {
      assert effects[0].ImportScripts?;
    }
  }

  /** Once a script was imported, a value other than a function in the
      factory slot always aborts: the base class is never chosen silently. */
  lemma MissingFactoryNeverFallsBack(env: HostEnv, createData: CreateData)
    requires Truthy(createData.customWorkerPath) && env.hasImportScripts
    requires !IsFunction(env.factoryAfterImport(ImportArgs(createData.customWorkerPath)))
    ensures MakeCreate(env, createData).outcome.Failed?
  {
  }

  /** A registered factory decides the class: the worker is an instance of
      whatever class it returns, built from the same `createData`. */
  lemma FactoryDecidesClass(env: HostEnv, createData: CreateData, cls: WorkerClass)
    requires Truthy(createData.customWorkerPath) && env.hasImportScripts
    requires env.importScripts(ImportArgs(createData.customWorkerPath)).Normal?
    requires IsFunction(env.factoryAfterImport(ImportArgs(createData.customWorkerPath)))
    requires env.callFactory(env.factoryAfterImport(ImportArgs(createData.customWorkerPath)),
                             BaseClass, FactoryDependencies) == Normal(cls)
    ensures var r := MakeCreate(env, createData);
            && r.effects == [ImportScripts(ImportArgs(createData.customWorkerPath))]
            && (r.outcome.Instantiated? <==> Construct(env, cls, createData).Normal?)
            && (r.outcome.Instantiated? ==> r.outcome.instance == Construct(env, cls, createData).value)
            && (cls != BaseClass && r.outcome.Instantiated? ==>
                  r.outcome.instance.CustomWorker? && r.outcome.instance.cls == cls)
  {
  }

  /** An empty-string path is falsy in JavaScript and loads nothing, whereas an
      empty array is truthy and leads to an `importScripts()` call with no
      arguments. */
  lemma EmptyPathsDiffer(env: HostEnv, languageId: string, context: Value)
    requires env.hasImportScripts
    ensures MakeCreate(env, CreateData(languageId, context, Str(""))).effects == []
    ensures MakeCreate(env, CreateData(languageId, context, Arr([]))).effects == [ImportScripts([])]
  {
  }
}

=== FILE: parse.dfy ===
/**
 The `parse` thunk of the Handlebars preview: it dispatches STARTED, compiles
 the content with `Handlebars.compile`, and dispatches SUCCESS with the
 compiled result or FAILURE with the thrown error. The compiler is an oracle.
 */
module ParseActions {
  import opened JsValues

  const PARSE_STARTED: string := "editor_preview_mustache_parse_started"
  const PARSE_SUCCESS: string := "editor_preview_mustache_parse_success"
  const PARSE_FAILURE: string := "editor_preview_mustache_parse_failure"

  /** The three actions; `contentType` and `requestId` sit in every action's
      `meta`, `content` in the payload of STARTED and in the meta of the
      other two. */
  datatype ParseAction =
    | ParseStarted(content: Value, contentType: Value, requestId: string)
    | ParseSuccess(parseResult: Value, content: Value, contentType: Value, requestId: string)
    | ParseFailure(error: Value, content: Value, contentType: Value, requestId: string)
  {
    function Type(): string {
      match this
      case ParseStarted(_, _, _) => PARSE_STARTED
      case ParseSuccess(_, _, _, _) => PARSE_SUCCESS
      case ParseFailure(_, _, _, _) => PARSE_FAILURE
    }

    function Payload(): Value {
      match this
      case ParseStarted(c, _, _) => c
      case ParseSuccess(p, _, _, _) => p
      case ParseFailure(e, _, _, _) => e
    }

    /** The action's `error: true` flag. */
    predicate IsError() {
      ParseFailure?
    }
  }

  /** `parseStarted`: the content is the payload. */
  function ParseStartedAction(content: Value, contentType: Value, requestId: string): (a: ParseAction)
    ensures a.Type() == PARSE_STARTED && !a.IsError()
    ensures a.Payload() == content
    ensures a.contentType == contentType && a.requestId == requestId
  {
    ParseStarted(content, contentType, requestId)
  }

  /** `parseSuccess`: the compiled template is the payload. */
  function ParseSuccessAction(parseResult: Value, content: Value, contentType: Value, requestId: string): (a: ParseAction)
    ensures a.Type() == PARSE_SUCCESS && !a.IsError()
    ensures a.Payload() == parseResult
    ensures a.content == content && a.contentType == contentType && a.requestId == requestId
  {
    ParseSuccess(parseResult, content, contentType, requestId)
  }

  /** `parseFailure`: the error is the payload and the action is flagged as
      an error. */
  function ParseFailureAction(error: Value, content: Value, contentType: Value, requestId: string): (a: ParseAction)
    ensures a.Type() == PARSE_FAILURE && a.IsError()
    ensures a.Payload() == error
    ensures a.content == content && a.contentType == contentType && a.requestId == requestId
  {
    ParseFailure(error, content, contentType, requestId)
  }

  /** `parserOptions = {}`: the options `Handlebars.compile` receives. */
  function CompileOptions(parserOptions: Value): (r: Value)
    ensures parserOptions.Undefined? ==> r == Obj([])
    ensures !parserOptions.Undefined? ==> r == parserOptions
  {
    OrDefault(parserOptions, Obj([]))
  }

  /** The actions one run of `parse({content, contentType, parserOptions})`
      dispatches, given the request id its generator produced; the thunk
      itself returns nothing. */
  function Parse(content: Value, contentType: Value, parserOptions: Value, requestId: string,
                 compile: (Value, Value) -> Completion<Value>): (r: seq<ParseAction>)
    // STARTED first, then exactly one terminal action
    ensures |r| == 2
    ensures r[0] == ParseStarted(content, contentType, requestId)
    ensures r[1].ParseSuccess? <==> compile(content, CompileOptions(parserOptions)).Normal?
    ensures r[1].ParseFailure? <==> compile(content, CompileOptions(parserOptions)).Throw?
    // the terminal payload is what compile returned or threw
    ensures r[1].Payload() == match compile(content, CompileOptions(parserOptions))
                               case Normal(v) => v
                               case Throw(e) => e
    // one request id, content and content type throughout
    ensures forall i :: 0 <= i < |r| ==>
              && r[i].requestId == requestId
              && r[i].content == content
              && r[i].contentType == contentType
  {
    var started := ParseStartedAction(content, contentType, requestId);
    match compile(content, CompileOptions(parserOptions))
    case Normal(parseResult) => [started, ParseSuccessAction(parseResult, content, contentType, requestId)]
    case Throw(error) => [started, ParseFailureAction(error, content, contentType, requestId)]
  }

  /** Only one compiler call matters: the content with the defaulted options.
      Two compilers that agree on it give the same run. */
  lemma CompileSeesOptionsUnchanged(content: Value, contentType: Value, parserOptions: Value, requestId: string,
                                    c1: (Value, Value) -> Completion<Value>, c2: (Value, Value) -> Completion<Value>)
    requires c1(content, CompileOptions(parserOptions)) == c2(content, CompileOptions(parserOptions))
    ensures Parse(content, contentType, parserOptions, requestId, c1)
            == Parse(content, contentType, parserOptions, requestId, c2)
  {
  }

  /** Never both: a run has exactly one SUCCESS or FAILURE, and only FAILURE
      is flagged as an error. */
  lemma ExactlyOneTerminal(content: Value, contentType: Value, parserOptions: Value, requestId: string,
                           compile: (Value, Value) -> Completion<Value>)
    ensures var r := Parse(content, contentType, parserOptions, requestId, compile);
            && (forall i :: 0 <= i < |r| ==> (r[i].ParseStarted? <==> i == 0))
            && (r[1].IsError() <==> r[1].Type() == PARSE_FAILURE)
            && r[1].Type() != PARSE_STARTED
  {
  }
}

=== FILE: render_template.dfy ===
/**
 The `renderTemplate` thunk of the Handlebars preview: it dispatches STARTED,
 renders either through the ApiDOM worker (remote) or with Handlebars in the
 page (local), and ends by dispatching and returning one SUCCESS or FAILURE
 action. Every host and library call is an oracle that returns or throws.
 */
module RenderTemplateActions {
  import opened JsValues

  const RENDER_TEMPLATE_STARTED: string := "editor_preview_mustache_render_template_started"
  const RENDER_TEMPLATE_SUCCESS: string := "editor_preview_mustache_render_template_success"
  const RENDER_TEMPLATE_FAILURE: string := "editor_preview_mustache_render_template_failure"

  /** The prefix by which the language service reports a failed render
      through its ordinary return value. */
  const Sentinel: string := "ERROR RENDERING:"

  const UnknownError: string := "Unknown error occurred"

  /** The three actions; `template`, `context` and `requestId` sit in each
      action's `meta`. */
  datatype RenderAction =
    | RenderStarted(template: Value, context: Value, requestId: string)
    | RenderSuccess(renderedTemplate: string, template: Value, context: Value, requestId: string)
    | RenderFailure(error: Value, template: Value, context: Value, errorMessage: Value, requestId: string)
  {
    function Type(): string {
      match this
      case RenderStarted(_, _, _) => RENDER_TEMPLATE_STARTED
      case RenderSuccess(_, _, _, _) => RENDER_TEMPLATE_SUCCESS
      case RenderFailure(_, _, _, _, _) => RENDER_TEMPLATE_FAILURE
    }

    function Payload(): Value {
      match this
      case RenderStarted(t, _, _) => t
      case RenderSuccess(out, _, _, _) => Str(out)
      case RenderFailure(e, _, _, _, _) => e
    }

    /** The action's `error: true` flag. */
    predicate IsError() {
      RenderFailure?
    }

    predicate Terminal() {
      !RenderStarted?
    }
  }

  /** The calls of the remote path, in the order JavaScript evaluates them:
      `await editorSelectors.selectEditor()`, then the callee
      `fn.getApiDOMWorker()`, then `editor.getModel()` (the `uri` read off its
      result is modelled by `GetProperty`), then the callee applied to the
      uri and awaited, and finally `await worker.renderTemplate(template)` on a
      worker that is not `null` or `undefined` (reading the method off such a
      worker throws, as `RenderRemote` states). */
  datatype RemoteAccess = RemoteAccess(
    selectEditor: Completion<Value>,
    getApiDOMWorker: Completion<Value>,
    getModel: Value -> Completion<Value>,
    workerFor: (Value, Value) -> Completion<Value>,
    renderTemplate: (Value, Value) -> Completion<string>)

  /** The calls of the local path: `Handlebars.compile(template)`,
      `fn.parseMustacheContext(context)` and the compiled template applied to
      the parsed context. */
  datatype LocalEngine = LocalEngine(
    compile: Value -> Completion<Value>,
    parseMustacheContext: Value -> Completion<Value>,
    render: (Value, Value) -> Completion<string>)

  /** What the thunk finds in the system: whether the two accessors of the
      remote path are defined, and the behaviour of both paths. */
  datatype RenderSystem = RenderSystem(
    selectEditorDefined: bool,
    getApiDOMWorkerDefined: bool,
    remote: RemoteAccess,
    local: LocalEngine)
  {
    /** `isApiDOMWorkerAvailable`. */
    predicate RemoteAvailable() {
      selectEditorDefined && getApiDOMWorkerDefined
    }
  }

  /** The actions dispatched, in order, and what the thunk's promise settles
      with. */
  datatype RenderRun = RenderRun(dispatched: seq<RenderAction>, returned: Completion<RenderAction>)

  /** `s.split('\n')[0]`: the text before the first line feed. */
  function FirstLine(s: string): (r: string)
    ensures r <= s
    ensures '\n' !in r
    ensures |r| < |s| ==> s[|r|] == '\n'
  {
    if |s| == 0 || s[0] == '\n' then "" else [s[0]] + FirstLine(s[1..])
  }

  /** `error.message || 'Unknown error occurred'`; reading `message` off
      `null` or `undefined` throws. */
  function ErrorMessage(error: Value): (r: Completion<Value>)
    ensures r.Throw? <==> IsNullish(error)
    ensures r.Normal? ==> Truthy(r.value)
    ensures error.ErrorObj? && error.message != "" ==> r == Normal(Str(error.message))
    ensures error.ErrorObj? && error.message == "" ==> r == Normal(Str(UnknownError))
    // a plain object thrown as an error: its own truthy `message`, whatever its type
    ensures error.Obj? && Truthy(Lookup(error.props, "message")) ==> r == Normal(Lookup(error.props, "message"))
    ensures error.Obj? && !Truthy(Lookup(error.props, "message")) ==> r == Normal(Str(UnknownError))
    ensures !error.Obj? && !error.ErrorObj? && !IsNullish(error) ==> r == Normal(Str(UnknownError))
  {
    match GetProperty(error, "message")
    case Throw(e) => Throw(e)
    case Normal(m) => Normal(if Truthy(m) then m else Str(UnknownError))
  }

  /** `renderTemplateStarted`: the template is the payload. */
  function RenderTemplateStarted(template: Value, context: Value, requestId: string): (a: RenderAction)
    ensures a.Type() == RENDER_TEMPLATE_STARTED && !a.IsError()
    ensures a.Payload() == template
    ensures a.context == context && a.requestId == requestId
  {
    RenderStarted(template, context, requestId)
  }

  /** `renderTemplateSuccess`: the rendered text is the payload. */
  function RenderTemplateSuccess(renderedTemplate: string, template: Value, context: Value, requestId: string): (a: RenderAction)
    ensures a.Type() == RENDER_TEMPLATE_SUCCESS && !a.IsError()
    ensures a.Payload() == Str(renderedTemplate)
    ensures a.template == template && a.context == context && a.requestId == requestId
  {
    RenderSuccess(renderedTemplate, template, context, requestId)
  }

  /** `renderTemplateFailure`: the payload is the error itself and the action
      is flagged as an error; it throws, building no action, when the error is
      `null` or `undefined`. */
  function RenderTemplateFailure(error: Value, template: Value, context: Value, requestId: string): (r: Completion<RenderAction>)
    ensures r.Throw? <==> IsNullish(error)
    ensures r.Throw? ==> r.error == PropertyReadError(error, "message")
    ensures r.Normal? ==> r.value.IsError() && r.value.Type() == RENDER_TEMPLATE_FAILURE
    ensures r.Normal? ==> r.value.Payload() == error && Truthy(r.value.errorMessage)
    ensures r.Normal? ==> r.value.errorMessage == ErrorMessage(error).value
    ensures r.Normal? ==> r.value.template == template && r.value.context == context && r.value.requestId == requestId
    ensures r.Normal? && error.ErrorObj? && error.message != "" ==> r.value.errorMessage == Str(error.message)
    ensures r.Normal? && error.ErrorObj? && error.message == "" ==> r.value.errorMessage == Str(UnknownError)
  {
    match ErrorMessage(error)
    case Throw(e) => Throw(e)
    case Normal(m) => Normal(RenderFailure(error, template, context, m, requestId))
  }

  /** `editor.getModel().uri`: reading `getModel` off a `null` or `undefined`
      editor throws, and so does reading `uri` off a missing model. */
  function ModelUri(editor: Value, getModel: Value -> Completion<Value>): (r: Completion<Value>)
    ensures IsNullish(editor) ==> r == Throw(PropertyReadError(editor, "getModel"))
    ensures !IsNullish(editor) ==> match getModel(editor)
                                   case Throw(e) => r == Throw(e)
                                   case Normal(m) => r == GetProperty(m, "uri")
    ensures !IsNullish(editor) && getModel(editor).Normal? && IsNullish(getModel(editor).value) ==>
              r.Throw? && r.error.name == "TypeError"
  {
    match GetProperty(editor, "getModel")
    case Throw(e) => Throw(e)
    case Normal(_) =>
      match getModel(editor)
      case Throw(e) => Throw(e)
      case Normal(m) => GetProperty(m, "uri")
  }

  /** The remote path: the first call that throws ends it, and that error is
      the path's result. */
  function RenderRemote(template: Value, remote: RemoteAccess): (r: Completion<string>)
    ensures remote.selectEditor.Throw? ==> r == Throw(remote.selectEditor.error)
    // the callee `fn.getApiDOMWorker()` is evaluated before its argument
    ensures remote.selectEditor.Normal? && remote.getApiDOMWorker.Throw? ==>
              r == Throw(remote.getApiDOMWorker.error)
    ensures remote.selectEditor.Normal? && remote.getApiDOMWorker.Normal? ==>
              match ModelUri(remote.selectEditor.value, remote.getModel)
              case Throw(e) => r == Throw(e)
              case Normal(uri) =>
                match remote.workerFor(remote.getApiDOMWorker.value, uri)
                case Throw(e) => r == Throw(e)
                // `worker.renderTemplate` is read off the worker before the call
                case Normal(worker) =>
                  if IsNullish(worker) then r == Throw(PropertyReadError(worker, "renderTemplate"))
                  else r == remote.renderTemplate(worker, template)
  {
    match remote.selectEditor
    case Throw(e) => Throw(e)
    case Normal(editor) =>
      match remote.getApiDOMWorker
      case Throw(e) => Throw(e)
      case Normal(getter) =>
        match ModelUri(editor, remote.getModel)
        case Throw(e) => Throw(e)
        case Normal(uri) =>
          match remote.workerFor(getter, uri)
          case Throw(e) => Throw(e)
          case Normal(worker) =>
            match GetProperty(worker, "renderTemplate")
            case Throw(e) => Throw(e)
            case Normal(_) => remote.renderTemplate(worker, template)
  }

  /** The local path: compile, then parse the context, then render; the first
      call that throws ends it. */
  function RenderLocal(template: Value, context: Value, local: LocalEngine): (r: Completion<string>)
    ensures local.compile(template).Throw? ==> r == Throw(local.compile(template).error)
    ensures local.compile(template).Normal? && local.parseMustacheContext(context).Throw? ==>
              r == Throw(local.parseMustacheContext(context).error)
    ensures local.compile(template).Normal? && local.parseMustacheContext(context).Normal? ==>
              r == local.render(local.compile(template).value, local.parseMustacheContext(context).value)
  {
    match local.compile(template)
    case Throw(e) => Throw(e)
    case Normal(compiled) =>
      match local.parseMustacheContext(context)
      case Throw(e) => Throw(e)
      case Normal(parsed) => local.render(compiled, parsed)
  }

  /** The rendering attempt inside the `try` block: the worker when both
      accessors are defined, Handlebars in the page otherwise. */
  function Produce(template: Value, context: Value, sys: RenderSystem): (r: Completion<string>)
    ensures sys.RemoteAvailable() ==> r == RenderRemote(template, sys.remote)
    ensures !sys.RemoteAvailable() ==> r == RenderLocal(template, context, sys.local)
  {
    if sys.RemoteAvailable() then RenderRemote(template, sys.remote)
    else RenderLocal(template, context, sys.local)
  }

  /** One run of the thunk `renderTemplate({template, context})` returns, with
      the request id its generator produced. */
  function RenderTemplate(template: Value, context: Value, requestId: string, sys: RenderSystem): (r: RenderRun)
    // STARTED comes first and exactly once
    ensures 1 <= |r.dispatched| <= 2
    ensures r.dispatched[0] == RenderStarted(template, context, requestId)
    ensures forall i :: 1 <= i < |r.dispatched| ==> r.dispatched[i].Terminal()
    // the terminal action is the one returned
    ensures r.returned.Normal? <==> |r.dispatched| == 2
    ensures r.returned.Normal? ==> r.dispatched[1] == r.returned.value
    // one request id, template and context throughout
    ensures forall i :: 0 <= i < |r.dispatched| ==>
              && r.dispatched[i].requestId == requestId
              && r.dispatched[i].template == template
              && r.dispatched[i].context == context
    // SUCCESS exactly for output that is not a remote sentinel text
    ensures r.returned.Normal? && r.returned.value.RenderSuccess? <==>
              (Produce(template, context, sys).Normal?
               && !(sys.RemoteAvailable() && Sentinel <= Produce(template, context, sys).value))
    ensures r.returned.Normal? && r.returned.value.RenderSuccess? ==>
              r.returned.value.renderedTemplate == Produce(template, context, sys).value
    // a FAILURE carries the thrown error, or a fresh `Error` for a sentinel text
    ensures r.returned.Normal? && r.returned.value.RenderFailure? ==>
              r.returned.value.error == match Produce(template, context, sys)
                                        case Throw(e) => e
                                        case Normal(out) => NewError(FirstLine(out))
    // only a thrown `null`/`undefined` escapes, through `error.message`
    ensures r.returned.Throw? <==>
              (Produce(template, context, sys).Throw? && IsNullish(Produce(template, context, sys).error))
    ensures r.returned.Throw? ==>
              r.returned.error == PropertyReadError(Produce(template, context, sys).error, "message")
  {
    var started := RenderTemplateStarted(template, context, requestId);
    var attempt: Completion<RenderAction> :=
      match Produce(template, context, sys)
      case Throw(e) => Throw(e)
      case Normal(out) =>
        if sys.RemoteAvailable() && Sentinel <= out then
          RenderTemplateFailure(NewError(FirstLine(out)), template, context, requestId)
        else
          Normal(RenderTemplateSuccess(out, template, context, requestId));
    var terminal :=
      match attempt
      case Normal(a) => Normal(a)
      case Throw(e) => RenderTemplateFailure(e, template, context, requestId);
    match terminal
    case Normal(a) => RenderRun([started, a], Normal(a))
    case Throw(e) => RenderRun([started], Throw(e))
  }

  /** The first line of a sentinel-prefixed text keeps the whole sentinel. */
  lemma SentinelSurvivesFirstLine(out: string)
    requires Sentinel <= out
    ensures Sentinel <= FirstLine(out)
  {
    assert '\n' !in Sentinel;
  }

  /** On the remote path a sentinel-prefixed text is a FAILURE whose message
      is its first line. */
  lemma RemoteSentinelIsFailure(template: Value, context: Value, requestId: string, sys: RenderSystem, out: string)
    requires sys.RemoteAvailable()
    requires Produce(template, context, sys) == Normal(out)
    requires Sentinel <= out
    ensures RenderTemplate(template, context, requestId, sys).returned
              == Normal(RenderFailure(NewError(FirstLine(out)), template, context, Str(FirstLine(out)), requestId))
  {
    SentinelSurvivesFirstLine(out);
  }

  /** The local path never looks for the sentinel: its text is a SUCCESS
      whatever it starts with. */
  lemma LocalOutputIsSuccess(template: Value, context: Value, requestId: string, sys: RenderSystem, out: string)
    requires !sys.RemoteAvailable()
    requires Produce(template, context, sys) == Normal(out)
    ensures RenderTemplate(template, context, requestId, sys).returned
              == Normal(RenderSuccess(out, template, context, requestId))
  {
  }

  /** A remote text without the sentinel is a SUCCESS carrying that text. */
  lemma RemotePlainOutputIsSuccess(template: Value, context: Value, requestId: string, sys: RenderSystem, out: string)
    requires sys.RemoteAvailable()
    requires Produce(template, context, sys) == Normal(out)
    requires !(Sentinel <= out)
    ensures RenderTemplate(template, context, requestId, sys).returned
              == Normal(RenderSuccess(out, template, context, requestId))
  {
  }

  /** An exception on either path becomes a FAILURE carrying that very error. */
  lemma ThrowIsFailure(template: Value, context: Value, requestId: string, sys: RenderSystem, e: Value)
    requires Produce(template, context, sys) == Throw(e)
    requires !IsNullish(e)
    ensures RenderTemplate(template, context, requestId, sys).returned
              == Normal(RenderFailure(e, template, context, ErrorMessage(e).value, requestId))
  {
  }

  /** The remote path is taken exactly when both accessors are defined: the
      local engine then plays no part, and otherwise the remote calls play none. */
  lemma PathSelection(template: Value, context: Value, requestId: string,
                      sys: RenderSystem, remote': RemoteAccess, local': LocalEngine)
    ensures sys.RemoteAvailable() ==>
              RenderTemplate(template, context, requestId, sys)
              == RenderTemplate(template, context, requestId, sys.(local := local'))
    ensures !sys.RemoteAvailable() ==>
              RenderTemplate(template, context, requestId, sys)
              == RenderTemplate(template, context, requestId, sys.(remote := remote'))
  {
  }

  /** The first line of a text is everything before its first line feed,
      whatever follows it. */
  lemma {:induction false} FirstLineStopsAtLineFeed(line: string, rest: string)
    requires '\n' !in line
    ensures FirstLine(line + "\n" + rest) == line
  {
    if |line| > 0 {
      assert (line + "\n" + rest)[1..] == line[1..] + "\n" + rest;
      FirstLineStopsAtLineFeed(line[1..], rest);
      assert [line[0]] + line[1..] == line;
    }
  }

  /** A typical remote render failure: only its first line becomes the
      error message. */
  lemma SentinelExample()
    ensures FirstLine("ERROR RENDERING: bad token\nmore detail") == "ERROR RENDERING: bad token"
  {
    assert "ERROR RENDERING: bad token\nmore detail" == "ERROR RENDERING: bad token" + "\n" + "more detail";
    FirstLineStopsAtLineFeed("ERROR RENDERING: bad token", "more detail");
  }

  /** Once `fn.getApiDOMWorker()` throws, the editor's model is never read:
      the remote path fails with that error whatever `getModel` would do. */
  lemma GetterThrowPrecedesModelRead(template: Value, remote: RemoteAccess,
                                     getModel': Value -> Completion<Value>, e: Value)
    requires remote.selectEditor.Normal?
    requires remote.getApiDOMWorker == Throw(e)
    ensures RenderRemote(template, remote) == Throw(e)
    ensures RenderRemote(template, remote.(getModel := getModel')) == Throw(e)
  {
  }

  /** With no editor and a getter that throws `null`, the `null` is what the
      `catch` sees, not the `TypeError` the uri read would raise; reading its
      `message` then rejects the thunk after STARTED alone. */
  lemma NullFromGetterRejects(template: Value, context: Value, requestId: string, sys: RenderSystem)
    requires sys.RemoteAvailable()
    requires sys.remote.selectEditor == Normal(Null)
    requires sys.remote.getApiDOMWorker == Throw(Null)
    ensures var r := RenderTemplate(template, context, requestId, sys);
            && r.dispatched == [RenderStarted(template, context, requestId)]
            && r.returned == Throw(PropertyReadError(Null, "message"))
  {
    assert Produce(template, context, sys) == Throw(Null);
  }

  /** A remote text with the sentinel whose first line is longer than the
      sentinel itself still keeps only that first line as message. */
  lemma {:induction false} RemoteFailureMessageIsFirstLine(template: Value, context: Value, requestId: string,
                                                          sys: RenderSystem, line: string, rest: string)
    requires sys.RemoteAvailable()
    requires Sentinel <= line && '\n' !in line
    requires Produce(template, context, sys) == Normal(line + "\n" + rest)
    ensures RenderTemplate(template, context, requestId, sys).returned
              == Normal(RenderFailure(NewError(line), template, context, Str(line), requestId))
  {
    var out := line + "\n" + rest;
    assert Sentinel <= out by {
      assert out[..|line|] == line;
    }
    FirstLineStopsAtLineFeed(line, rest);
    RemoteSentinelIsFailure(template, context, requestId, sys, out);
  }

  /** A worker lookup that yields `null` or `undefined` ends the remote path
      with the `TypeError` of reading `renderTemplate`, whatever the render
      call would have returned. */
  lemma NullishWorkerThrows(template: Value, remote: RemoteAccess, uri: Value,
                            render': (Value, Value) -> Completion<string>)
    requires remote.selectEditor.Normal? && remote.getApiDOMWorker.Normal?
    requires ModelUri(remote.selectEditor.value, remote.getModel) == Normal(uri)
    requires remote.workerFor(remote.getApiDOMWorker.value, uri).Normal?
    requires IsNullish(remote.workerFor(remote.getApiDOMWorker.value, uri).value)
    ensures RenderRemote(template, remote).Throw?
    ensures RenderRemote(template, remote).error.name == "TypeError"
    ensures RenderRemote(template, remote) == RenderRemote(template, remote.(renderTemplate := render'))
  {
  }
}
